=== FILE: README.md ===
# Energy-harvest simulator core in Dafny

This project models the lumped energy and charge core of a discrete-event simulator for a
bq25570-style energy-harvesting circuit. A boost charger fills a storage capacitor from an
intermittent power source, such as a thermoelectric generator. It shares that charge with a
battery capacitor. A buck converter draws the load's energy back out of the pair. The
original implements all of this in `Harvest3.py`.

Everything is over exact `real`s. Each SimPy process is replaced by a pure step function on
an immutable record, and each step fires once per clock tick or tock:

- `Wrappers` (`wrappers.dfy`): `Option`, which stands for the original's `None` readings.
  Its `Some?` test plays the part of `defined`.
- `Capacitor` (`capacitor.dfy`): class `cap`. It holds a positive capacitance and a charge.
  V = Q/C and U = C·V²/2 are derived from them.
- `LoadSink` (`sink.dfy`): class `sink`. This is the Ohm's-law node over optional I, V and R,
  with guarded setters.
- `PowerSource` (`power_source.dfy`): class `Psrc`. It covers the sample cursor, linear
  interpolation, the utilisation accumulator and the enable gate.
- `Clock` (`clock.dfy`): class `clock`. It holds the dependent set and the idle, active and
  stopped lifecycle of the tick train, plus the tock train.
- `Harvester` (`harvester.dfy`): class `harvester`. It covers the state machine and its log,
  the loss table, `nextQ`, `boost`, `balance` with its overvoltage clamp, and `sinkU`.
- `Converter` (`converter.dfy`): class `converter`. It covers the `on` gating, the reported
  V, I and P, the draw derated by the 10 % loss, and `buck`.
- `Probes` (`probes.dfy`): classes `scope` and `OnOff`.

Square roots are never computed. Where the original takes Q1 = sqrt(2·C·(U0 + dU)), the
model receives `q1` as a parameter. Its precondition is `q1 >= 0` and
`q1 * q1 == 2 * C * (U0 + dU)`. That precondition also carries the original's
obligation that the radicand is not negative, because `math.sqrt` would otherwise raise.
In the same way, a Python exception that would crash the run becomes a `requires` or a
subtype. These are all such cases:

- A division by zero in a `sink` getter (Harvest3.py:286, 338, 364) is excluded by the
  nonzero-divisor `requires` of `LoadSink.GetR`, `LoadSink.GetI` and `LoadSink.GetP`.
- A zero capacitance, which would divide by zero in the V getter (Harvest3.py:418), is
  excluded by the positive subtype `Capacitor.PosReal`.
- Unregistering a component that never registered (Harvest3.py:65) raises `KeyError`.
  `Clock.Stop`, `Converter.RunFirst` and the two `RunTick`s require the component to be
  registered.
- An empty sample series would fail the `pop` that primes the cursor (Harvest3.py:142).
  `PowerSource.Start` requires at least one sample.
- Sample times must strictly increase (`PowerSource.Increasing`) for a source to be queried
  (`PowerSource.Valid`). Equal times would divide by zero in the interpolation
  (Harvest3.py:160). Decreasing times would hand SimPy a negative delay
  (Harvest3.py:148), which it rejects. The cursor steps themselves (`Start`, `Sleep`,
  `Advance`, `WakeTimes`) accept any series and state what an increasing one adds.
- The toggler passes each delay it reaches to `timeout` (Harvest3.py:107), which rejects a
  negative delay. `Probes.OnOffRun` requires every delay up to and including the wake-up
  that ends the loop to be non-negative.
- A negative radicand for `math.sqrt` (Harvest3.py:434, 511, 553) is excluded by the `q1`
  preconditions above.
- The clock period must be positive (`Clock.New`), so that time advances between ticks.

Behaviours of Harvest3.py worth noting, which the model follows:

- An idle clock keeps firing ticks while no component has ever registered. The code spins
  in its first loop (Harvest3.py:33-35), so the clock never stops on its own in that case.
- The utilisation total adds each interpolated reading as it is queried (Harvest3.py:162).
  It does not integrate power over time.
- A converter that is off reports power 0 (Harvest3.py:704-706). It therefore keeps
  running even after its load has no more data. It ends when the clock has stopped, or
  when it is on and the load's power is undefined (Harvest3.py:667-674).
- In the `full` state `nextQ` only rebalances and credits none of the tick's harvest
  (Harvest3.py:518-519). This is preserved as written (`Harvester.FullDropsHarvest`).
- The interpolation measures `now` against the absolute sample times. The cursor process,
  however, starts at simulated time 0 and sleeps the differences between samples. The two
  agree only when the series starts at time 0, as `PowerSource.CursorBracketsNow` makes
  explicit.

## Model

| member | source | states |
|---|---|---|
| Capacitor.New | Harvest3.py:395-400 | a new capacitor has the given capacitance and no charge, so it reads zero voltage and zero energy |
| Capacitor.V | Harvest3.py:415-418 | V·C = Q, and V is non-negative exactly when Q is |
| Capacitor.U | Harvest3.py:424-427 | the energy is non-negative and 2·C·U = Q² |
| Capacitor.SetV | Harvest3.py:420-422 | writing V keeps C and makes V read back as written |
| Capacitor.SetU | Harvest3.py:429-434 | with Q = the non-negative root of 2·U·C, the energy reads back as U and V ≥ 0 |
| Capacitor.AddQ | Harvest3.py:436-438 | the charge grows by exactly dQ, C is unchanged, and V grows by dQ/C |
| Capacitor.SetVOfV | Harvest3.py:415-422 | writing back the voltage just read leaves the capacitor unchanged |
| Capacitor.AddQInverse | Harvest3.py:436-438 | adding and then removing the same charge is the identity |
| Capacitor.EnergyOfVoltage | Harvest3.py:420-427 | a capacitor set to voltage v stores C·v²/2 |
| LoadSink.New | Harvest3.py:272-279 | a new sink is enabled and holds exactly the quantities given |
| LoadSink.GetR | Harvest3.py:281-290 | R is the given one, or else derived with R·I = V; it is defined iff R or both I and V are given; a disabled sink reads 1e15 |
| LoadSink.GetV | Harvest3.py:307-316 | V is the given one, or else I·R; it is defined iff V or both I and R are given; a disabled sink reads 0 |
| LoadSink.GetI | Harvest3.py:333-342 | I is the given one, or else derived with I·R = V; it is defined iff I or both V and R are given; a disabled sink reads 0 |
| LoadSink.GetP | Harvest3.py:359-370 | P is defined iff at least two quantities are given; a disabled sink reads 0 |
| LoadSink.PowerIsVoltageTimesCurrent | Harvest3.py:307-370 | whichever pair P was computed from, a defined P equals the V getter times the I getter, including R = 0 when V and I are given; only the getters' own division by zero is excluded |
| LoadSink.SetR | Harvest3.py:292-301 | the write is accepted iff R is given or exactly one of V and I is; a rejected write leaves the sink unchanged; a sink never goes from at most two to three quantities |
| LoadSink.SetV | Harvest3.py:318-327 | the write is accepted iff V is given or exactly one of I and R is; a rejected write leaves the sink unchanged; a sink never goes from at most two to three quantities |
| LoadSink.SetIAsWritten | Harvest3.py:344-353 | as written, the I setter accepts whenever V or R is given and rejects only when neither is |
| LoadSink.SetIAsWrittenOverDetermines | Harvest3.py:344-353 | from V and R given with I undefined, the as-written setter makes all three defined |
| LoadSink.SetIAsWrittenCounterexample | Harvest3.py:344-353 | with V = 2.5 and R = 50 given, writing I = 0.05 over-determines the sink |
| LoadSink.SetI | Harvest3.py:344-353 | with the sibling setters' guard, the I setter keeps the two-of-three invariant |
| LoadSink.ClearR | Harvest3.py:303-305 | deleting R makes it undefined, touches nothing else and lowers the defined count by one at most |
| LoadSink.ClearV | Harvest3.py:329-331 | deleting V makes it undefined, touches nothing else and lowers the defined count by one at most |
| LoadSink.ClearI | Harvest3.py:355-357 | deleting I makes it undefined, touches nothing else and lowers the defined count by one at most |
| PowerSource.Start | Harvest3.py:122-147 | the source holds the given series with the cursor at 1, so the first sample is previous and the second, if any, is next; the utilisation total and the last reading start at 0; an increasing series gives a valid source |
| PowerSource.Sleep | Harvest3.py:144-148 | the process sleeps exactly the gap from the previous sample to the next, strictly positive for an increasing series |
| PowerSource.Advance | Harvest3.py:144-150 | one step makes the next sample the previous one, keeps the cursor in range, and keeps a valid source valid |
| PowerSource.Interpolate | Harvest3.py:156-160 | the point (now, reading) lies on the line through the two bracketing samples; the reading equals them at their times and lies between them in between |
| PowerSource.InterpolateBetween | Harvest3.py:156-160 | the interpolation formula is on the line through both end samples, meets them, and is bounded by them |
| PowerSource.Query | Harvest3.py:153-165 | there is no value iff the series is exhausted, and then nothing changes; a value is the interpolation; it is recorded, and added to the total while the total is at most 0.3571 |
| PowerSource.P | Harvest3.py:167-169 | a disabled source reads 0 with no side effect |
| PowerSource.UtotFrozenAfterCap | Harvest3.py:162 | once the total has passed 0.3571 no reading changes it |
| PowerSource.WakeTimes | Harvest3.py:140-151 | stepping the cursor from `Start` with `Sleep` and `Advance`, as the process does, it reaches sample k at time samples[k].time − samples[0].time, at strictly increasing times for an increasing series |
| PowerSource.CursorBracketsNow | Harvest3.py:140-160 | at any time from the start, the cursor's previous sample has been reached and its next has not |
| PowerSource.TriangleSeries | Harvest3.py:140-165 | for the series (0,0), (1,10), (2,0) the reading is 5 at 0.5 and at 1.5, and there is no value at 2.5 |
| Clock.New | Harvest3.py:19-28 | a new clock holds the given period, is running and idle, and has no dependents |
| Clock.Running | Harvest3.py:26-42 | the running flag holds until the primary train has stopped |
| Clock.Start | Harvest3.py:59-61 | registering adds the component and changes nothing else |
| Clock.Stop | Harvest3.py:63-65 | unregistering a registered component removes exactly that one |
| Clock.Tick | Harvest3.py:30-43 | the lifecycle never goes back; a tick fires iff the clock still runs; an active clock with no dependents stops; a running clock with dependents is active; an idle clock with none spins |
| Clock.Tock | Harvest3.py:30-51 | the tock after a boundary is decided by the clock as it stood before that boundary's tick: it fires whenever that tick fires, it also fires after the tick that stops the clock, and never once the clock had stopped |
| Clock.TockTime | Harvest3.py:22 | each tock falls strictly between its tick and the next |
| Clock.Ticks | Harvest3.py:30-51 | over n boundaries at most n ticks and n tocks fire and the dependents are untouched |
| Clock.TicksWithFixedDependents | Harvest3.py:30-51 | with a fixed dependent set: stopped stays silent, idle with none fires every time, active with none stops at once and tocks once more, running with some is active and fires both trains every time |
| Clock.TocksOutlastTicks | Harvest3.py:30-51 | over any run the tock train fires as often as the tick train, plus exactly one more when the clock stops during the run |
| Harvester.New | Harvest3.py:444-477 | a new harvester is off, its battery is not OK, its log is (0, off), and its previous input sample is at time 0 |
| Harvester.Classify | Harvest3.py:564-574 | the rule always finds a state, so the error branch is unreachable: off iff not enabled, cold iff V < chgen, warm iff chgen ≤ V < 0.999·bat_ov, full iff V ≥ 0.999·bat_ov |
| Harvester.LogState | Harvest3.py:581-585 | logging appends one entry to each list and keeps what was there |
| Harvester.NextState | Harvest3.py:558-585 | batOK iff Vstor ≥ bat_ok; the state follows the classification; a change appends (old, new) at the same time; otherwise the log is unchanged; the capacitors are untouched |
| Harvester.NextStateKeepsLogAligned | Harvest3.py:575-585 | the two log lists stay the same length and grow by two exactly on a change |
| Harvester.Loss | Harvest3.py:587-597 | the loss lies in [0, 1] and is 1 exactly in off; it is 0.95 in cold and 0.25 in warm and full |
| Harvester.Harvested | Harvest3.py:494-509 | the harvest of a tick is the input energy P·dT derated by the state's loss: zero in off, and non-negative for non-negative power over forward time |
| Harvester.HarvestedAtMostInput | Harvest3.py:494-509 | the derated harvest never exceeds the input energy P·dT |
| Harvester.OffHarvestsNothing | Harvest3.py:494-509 | in off the derated harvest is zero whatever the input |
| Harvester.Share | Harvest3.py:535-538 | total charge is kept and both capacitors end at (Q1 + Q2)/(C1 + C2) |
| Harvester.ShareOfEqualVoltages | Harvest3.py:535-538 | sharing between capacitors at one voltage moves no charge |
| Harvester.ClampsIffSharedVoltage | Harvest3.py:539-541 | the clamp fires iff the shared voltage reaches bat_ov, that is iff Q1 + Q2 ≥ bat_ov·(C1 + C2) |
| Harvester.Balance | Harvest3.py:535-541 | the voltages end equal and at most bat_ov; charge is conserved unless the clamp fires, when both end at bat_ov and charge is only lost |
| Harvester.BalanceIdempotent | Harvest3.py:535-541 | balancing a balanced pair changes nothing |
| Harvester.Boost | Harvest3.py:525-533 | cold and off only add dQ to storage; warm and full also balance, adding dQ to the total unless the clamp fires |
| Harvester.NextQ | Harvest3.py:492-523 | the run ends iff the input is undefined, with the capacitors untouched; off touches nothing; cold raises the storage energy by exactly (1 − loss)·P·dT and leaves the battery alone; warm brings in charge Q1 and balances; full only balances; in warm and full both voltages end at bat_ov when the clamp fires |
| Harvester.Credit | Harvest3.py:512-521 | a defined tick moves charge by state: cold sets the storage charge to Q1 and leaves the battery alone; warm brings in Q1 and balances, ending at equal voltages, at bat_ov when clamped and otherwise with joint charge Q1 + Qbat; full is exactly a plain balance; off changes nothing |
| Harvester.FullDropsHarvest | Harvest3.py:514-519 | in full the pair ends exactly as a plain balance leaves it, whatever the input power |
| Harvester.SinkU | Harvest3.py:543-556 | the joint charge becomes Q1, with Q1² = 2·(Cstor + Cbat)·(Ustor + Ubat + dU), unless the clamp fires, when both voltages end at bat_ov; in cold and off the whole change lands on storage and the battery is untouched |
| Harvester.SinkUConservesEnergy | Harvest3.py:543-556 | in warm or full, from any pair, balanced or not, and without the clamp, the stored energy changes by exactly dU |
| Harvester.ThresholdWalk | Harvest3.py:558-585 | storage voltages 0, 1.0, 2.0, 5.49, 5.5 give cold, cold, warm, warm, full, and the log holds one (old, new) pair per change |
| Harvester.RunStart | Harvest3.py:479-483 | starting precharges the battery to chgen, keeping its capacitance, changes nothing else in the harvester, and registers the harvester's own identity with the clock |
| Harvester.RunTick | Harvest3.py:484-490 | each step is one `nextQ`; the process continues iff the input has a value; at the end it unregisters exactly itself and leaves the capacitors untouched |
| Harvester.StateTock | Harvest3.py:558-578 | while the clock runs, a tock reclassifies the harvester from the storage voltage, sets batOK, logs a change of state and leaves the capacitors alone; once it has stopped, nothing changes |
| Converter.New | Harvest3.py:639-660 | a new converter holds its output voltage and enable bit |
| Converter.On | Harvest3.py:716-718 | the converter is on exactly when enabled and the harvester reports the battery OK |
| Converter.OnAfterStateTock | Harvest3.py:558-578 | after the harvester's state step the converter is on exactly when enabled and the storage voltage has reached bat_ok |
| Converter.OutV | Harvest3.py:696-698 | the output voltage is Vout while enabled and the battery is OK, and 0 otherwise |
| Converter.OutReading | Harvest3.py:700-706 | the output current and power are the load's readings while enabled and the battery is OK, and 0 otherwise |
| Converter.Draw | Harvest3.py:680-683 | the energy drawn, less the 10 % loss, is exactly the load's P·dT, so the draw is at least P·dT |
| Converter.Buck | Harvest3.py:687-690 | off never touches the harvester; on, it is one `sinkU`: the joint charge becomes the Q1 that holds the pair's energy plus dU unless the clamp fires, cold and off put the whole change on storage, warm and full end with equal voltages at most bat_ov, exactly bat_ov when clamped; the harvester's state and log are untouched |
| Converter.NextU | Harvest3.py:676-685 | off continues with the harvester untouched; on, it ends iff the load has no power value, and otherwise passes −(P/(1 − 0.10))·dT to sinkU, leaving joint charge Q1 unless the clamp fires |
| Converter.OffDrawsNothing | Harvest3.py:676-718 | off, whatever the load demands, V, I and P read 0 and no energy is withdrawn |
| Converter.RunStart | Harvest3.py:662-666 | starting writes Vout to a `sink` load through its guarded V setter, which on acceptance changes only V and otherwise leaves the load as it was, and registers the converter's own identity with the clock |
| Converter.RunFirst | Harvest3.py:667-674 | the first step after start is one `nextU` taken without looking at the clock, so a converter registering on a stopped clock still draws once; it ends and unregisters exactly itself when it is on and the load has no power value |
| Converter.RunTick | Harvest3.py:668-674 | each later step ends the process and unregisters exactly itself when the clock has stopped; otherwise it is one `nextU`, ending when the converter is on and the load has no power value, and a converter that is off keeps running without touching the capacitors |
| Probes.NewScope | Harvest3.py:77-83 | a new probe is collecting and empty |
| Probes.ScopeStep | Harvest3.py:84-91 | a collecting probe appends (time, value) while the clock runs and the value is defined, and otherwise becomes inert; an inert probe does nothing |
| Probes.ScopeRun | Harvest3.py:81-91 | the time and data lists only grow, and always by the same number of entries |
| Probes.InertScopeStays | Harvest3.py:84-91 | an inert probe records nothing more, ever |
| Probes.ScopeRecordsCollectablePrefix | Harvest3.py:81-91 | the probe records exactly the leading samples taken while the clock runs and the value is defined, in order, after what it held |
| Probes.OnOffRun | Harvest3.py:105-109 | the flag ends flipped once per wake-up that found the clock running, up to the first that did not; the k-th flip happens after the first k+1 delays, so the flips come in time order |

## Left out

- Loading the CSV series (Harvest3.py:127-137): this is file I/O and number parsing, and the
  header row is dropped there. The model takes the samples as a given sequence.
  `PowerSource.Start` requires at least one sample, because the original pops the first one.
- The SimPy scheduler: processes, `timeout`, `yield` and event queues. Each process is a
  step function. In the original the clock and the harvester are single shared objects
  (Harvest3.py:446-453, 647). In the model each `Proc` carries its own copy of the clock, and
  the converter's `Proc` its own copy of the harvester. Keeping these copies in step, in
  scheduler order, is left to the caller. The order of equally timed events within one instant is not modelled. A
  query on a `Psrc` before its process has primed the cursor, which would raise, is not
  modelled either.
- Component names: the clock keys its dependents by the component object (Harvest3.py:61).
  The model keys them by a `Clock.Id` that the caller gives each component, standing for that
  object's identity. The name stored alongside it is only printed, so it is left out.
- `print` and `warn`: a rejected setter write is modelled as "state unchanged".
- The `Psrc` V, I and R getters, setters and deleters, and `Zsrc` (Harvest3.py:175-258).
  The getters fall back on square roots when only R is given. The converter reaches the V
  setter (Harvest3.py:192-196) and the I and P getters whenever its load is a `Psrc`, as in
  the wiring at TEG_model3.py:43-47. `Converter.RunStart` models a `sink` load only. The
  other operations take the load's readings as given values, so they hold for either kind
  of load. The `Psrc` and `sink` P
  setters and the `sink` P deleter (Harvest3.py:171-173, 372-378) only warn or clear an
  unused field.
- The debug fields `_dQ`, `_dU` and `Ustored` of the harvester and the converter, and the
  `list_m` helper.
- The `coldstart` and `bat_uv` thresholds: they are declared but never read.
- The `cap` Q setter, the `en` setters and the `on` properties that return `en`: the model
  does these as plain record updates and reads.
- The power stored in the harvester's `next_Pin`: only its time is ever read again, so the
  model keeps `lastTime`. The converter's `next_Pout` is handled the same way.
- Reading the inputs: the converter's load readings enter `Converter.OutReading` and
  `Converter.NextU` as given values. The harvester's input reading (`self.inp.P`,
  Harvest3.py:494) enters `Harvester.NextQ` as the given `p` in the same way. The side
  effects of those reads on a `Psrc` (its `Utot` and `nowP`, modelled by
  `PowerSource.Query`) are not chained through.
- Scope's reflective attribute lookup: the probed value arrives as an observation per tock.
- TEG_model3.py (run configuration and plotting) is not part of this model.
- Floating-point rounding, the float meaning of 1e15, and NaN: the model is over exact
  reals.

## Findings

| source | as written | input that shows it | evidently intended | confidence | as-written member | corrected member |
|---|---|---|---|---|---|---|
| Harvest3.py:346 | the I setter's first guard is `if defined(self._V)`, so any write is accepted while V is given, and the branch at line 348 is dead | a sink with V = 2.5 and R = 50 given and I undefined; writing I = 0.05 is accepted and all three quantities become defined | `if defined(self._I)`, as the R and V setters test their own quantity (lines 294, 320), so that no write over-determines the sink | high; not executed | LoadSink.SetIAsWritten, LoadSink.SetIAsWrittenCounterexample | LoadSink.SetI |

=== FILE: capacitor.dfy ===
/** The lumped capacitor of the simulator (class `cap`): a fixed capacitance
    C and a charge Q, from which the voltage V = Q/C and the stored energy
    U = C*V^2/2 are derived. */
module Capacitor {

  /** Capacitances are strictly positive for the whole simulation. */
  type PosReal = x: real | x > 0.0 witness 1.0

  datatype Cap = Cap(c: PosReal, q: real)

  /** A capacitor as constructed: the given capacitance, discharged. */
  function New(c: PosReal): (k: Cap)
    ensures k.c == c && V(k) == 0.0 && U(k) == 0.0
  {
    Cap(c, 0.0)
  }

  /** Voltage across the capacitor. */
  function V(k: Cap): (v: real)
    ensures v * k.c == k.q
    ensures (v >= 0.0) == (k.q >= 0.0)
  {
    k.q / k.c
  }

  /** Stored energy, computed from the voltage as C*V^2/2. */
  function U(k: Cap): (u: real)
    ensures u >= 0.0
    ensures 2.0 * k.c * u == k.q * k.q
  {
    var v := V(k);
    assert k.c * v * v * k.c == k.q * k.q;
    k.c * v * v / 2.0
  }

  /** Setting the voltage recomputes the charge as C*V. */
  function SetV(k: Cap, v: real): (r: Cap)
    ensures r.c == k.c
    ensures V(r) == v
  {
    Cap(k.c, k.c * v)
  }

  /** Setting the energy recomputes the charge as sqrt(2*U*C); the square
      root is supplied as `q1`, which must be the non-negative root. */
  function SetU(k: Cap, u: real, q1: real): (r: Cap)
    requires q1 >= 0.0 && q1 * q1 == 2.0 * u * k.c
    ensures r.c == k.c
    ensures U(r) == u
    ensures V(r) >= 0.0
  {
    Cap(k.c, q1)
  }

  /** Adds `dq` to the charge; the capacitance never changes. */
  function AddQ(k: Cap, dq: real): (r: Cap)
    ensures r.c == k.c
    ensures r.q - k.q == dq
    ensures V(r) - V(k) == dq / k.c
  {
    Cap(k.c, k.q + dq)
  }

  /** Writing back the voltage just read leaves the capacitor as it was. */
  lemma SetVOfV(k: Cap)
    ensures SetV(k, V(k)) == k
  {
    assert k.c * V(k) == k.q;
  }

  /** Adding and then removing the same charge is the identity. */
  lemma AddQInverse(k: Cap, dq: real)
    ensures AddQ(AddQ(k, dq), -dq) == k
  {
  }

  /** Energy of a capacitor charged to voltage v is C*v^2/2. */
  lemma EnergyOfVoltage(k: Cap, v: real)
    ensures U(SetV(k, v)) == k.c * v * v / 2.0
  {
    var r := SetV(k, v);
    assert 2.0 * k.c * U(r) == (k.c * v) * (k.c * v);
    assert 2.0 * k.c * U(r) == k.c * (k.c * v * v);
  }
}

=== FILE: clock.dfy ===
/** The master clock of the simulator (class `clock`): a set of dependent
    components and a primary "tick" train with an idle, active, stopped
    lifecycle, plus a secondary "tock" train offset by a tenth of the
    period. The cooperative scheduler is replaced by explicit steps, one
    per period boundary. */
module Clock {

  /** The identity of a dependent component. The original keys its set by
      the component object itself, so two components never share an id,
      whatever their names. */
  type Id = nat

  /** Idle: no dependent has registered yet and the clock spins.
      Active: dependents are registered. Stopped: the last one left. */
  datatype Phase = Idle | Active | Stopped

  datatype Clock = Clock(period: real, req: set<Id>, phase: Phase)

  /** A fresh clock, before any dependent registers. */
  function New(period: real): (c: Clock)
    requires period > 0.0
    ensures Running(c) && c.req == {} && c.phase == Idle && c.period == period
  {
    Clock(period, {}, Idle)
  }

  /** The `running` flag: true until the primary train ends. */
  predicate Running(c: Clock) {
    c.phase != Stopped
  }

  /** Position of a phase in the lifecycle. */
  function Rank(p: Phase): (n: nat)
    ensures n <= 2
  {
    match p
    case Idle => 0
    case Active => 1
    case Stopped => 2
  }

  /** A component registers as depending on the clock. */
  function Start(c: Clock, id: Id): (r: Clock)
    ensures id in r.req && r.req - {id} == c.req - {id}
    ensures r.phase == c.phase && r.period == c.period
  {
    c.(req := c.req + {id})
  }

  /** A component unregisters; it must have registered (the original raises
      on an unknown key). */
  function Stop(c: Clock, id: Id): (r: Clock)
    requires id in c.req
    ensures id !in r.req && r.req + {id} == c.req
    ensures |r.req| == |c.req| - 1
    ensures r.phase == c.phase && r.period == c.period
  {
    c.(req := c.req - {id})
  }

  datatype TickStep = TickStep(clock: Clock, fired: bool)

  /** One period boundary of the primary train. While idle it keeps
      spinning; the first boundary that sees a dependent makes it active;
      an active clock that sees no dependent stops without firing. */
  function Tick(c: Clock): (r: TickStep)
    ensures r.clock.req == c.req && r.clock.period == c.period
    ensures r.fired <==> Running(r.clock)
    ensures Rank(c.phase) <= Rank(r.clock.phase)
    ensures c.phase == Stopped ==> r.clock.phase == Stopped
    ensures c.phase == Active && c.req == {} ==> r.clock.phase == Stopped
    ensures Running(c) && c.req != {} ==> r.clock.phase == Active
    ensures c.phase == Idle && c.req == {} ==> r.clock.phase == Idle
  {
    match c.phase
    case Idle =>
      if |c.req| == 0 then TickStep(c, true)
      else TickStep(c.(phase := Active), true)
    case Active =>
      if |c.req| > 0 then TickStep(c, true)
      else TickStep(c.(phase := Stopped), false)
    case Stopped => TickStep(c, false)
  }

  /** Whether the tock that follows a period boundary fires, given the clock
      as it stood BEFORE that boundary's `Tick`: each tock is armed a period
      earlier, by a loop that only looks at the running flag, and the flag
      can only change at a tick. So the tock train ends one tock after the
      tick train: the boundary that stops the clock is still followed by a
      tock. */
  function Tock(before: Clock): (fired: bool)
    ensures Tick(before).fired ==> fired
    ensures Running(before) && !Running(Tick(before).clock) ==> fired && !Tick(before).fired
    ensures !Running(before) ==> !fired && !Tick(before).fired
  {
    Running(before)
  }

  /** Time of the k-th primary tick. */
  function TickTime(c: Clock, k: nat): real {
    k as real * c.period
  }

  /** Time of the k-th secondary tock: a tenth of a period after the k-th
      tick, so it always sees state updated by that tick and precedes the
      next one. */
  function TockTime(c: Clock, k: nat): (t: real)
    requires c.period > 0.0
    ensures TickTime(c, k) < t < TickTime(c, k + 1)
  {
    c.period / 10.0 + k as real * c.period
  }

  /** The outcome of a number of boundaries: the clock after them, and how
      many ticks and tocks fired. */
  datatype Run = Run(clock: Clock, fired: nat, tocks: nat)

  /** `n` period boundaries, each a tick followed by its tock, with no
      change to the dependent set. */
  function Ticks(c: Clock, n: nat): (r: Run)
    ensures r.fired <= n && r.tocks <= n
    ensures r.clock.req == c.req && r.clock.period == c.period
    decreases n
  {
    if n == 0 then Run(c, 0, 0)
    else
      var s := Tick(c);
      var rest := Ticks(s.clock, n - 1);
      Run(rest.clock, rest.fired + (if s.fired then 1 else 0), rest.tocks + (if Tock(c) then 1 else 0))
  }

  /** With a fixed dependent set, over n >= 1 boundaries: a stopped clock
      stays stopped and silent; an idle clock with no dependents spins and
      fires every time; an active clock with no dependents stops at the
      first boundary, never ticks and tocks once; a running clock with
      dependents is active and fires both trains every time. */
  lemma {:induction false} TicksWithFixedDependents(c: Clock, n: nat)
    requires n >= 1
    ensures c.phase == Stopped ==> Ticks(c, n) == Run(c, 0, 0)
    ensures c.phase == Idle && c.req == {} ==> Ticks(c, n) == Run(c, n, n)
    ensures c.phase == Active && c.req == {} ==> Ticks(c, n) == Run(c.(phase := Stopped), 0, 1)
    ensures Running(c) && c.req != {} ==> Ticks(c, n) == Run(c.(phase := Active), n, n)
    decreases n
  {
    var s := Tick(c);
    if n > 1 {
      TicksWithFixedDependents(s.clock, n - 1);
    }
  }

  /** Over any number of boundaries the tock train fires exactly as often
      as the tick train, plus one when the clock stopped along the way. */
  lemma {:induction false} TocksOutlastTicks(c: Clock, n: nat)
    ensures Ticks(c, n).tocks ==
      Ticks(c, n).fired + (if Running(c) && !Running(Ticks(c, n).clock) then 1 else 0)
    decreases n
  {
    if n > 0 {
      var s := Tick(c);
      TocksOutlastTicks(s.clock, n - 1);
      var rest := Ticks(s.clock, n - 1);
      assert Ticks(c, n).clock == rest.clock;
      if !Running(s.clock) && n > 1 {
        TicksWithFixedDependents(s.clock, n - 1);
      }
    }
  }
}

=== FILE: converter.dfy ===
/** The output half of the bq25570 model (class `converter`): a buck
    converter with a fixed output voltage feeding a load. It is on only
    while enabled and while the harvester reports the battery OK; when on,
    every tick it withdraws the load's energy, raised by the converter
    loss, from the harvester's capacitor pair through `SinkU`. */
module Converter {
  import opened Wrappers
  import opened Capacitor
  import Harvester
  import Clock
  import LoadSink

  /** Fraction of the drawn energy lost in the converter. */
  const ConverterLoss: real := 0.10

  datatype Converter = Converter(
    vout: real,
    en: bool,
    /** time of the previous output-power sample */
    lastTime: real)

  function New(vout: real, en: bool): (cv: Converter)
    ensures cv.vout == vout && cv.en == en && cv.lastTime == 0.0
  {
    Converter(vout, en, 0.0)
  }

  /** The converter runs only while enabled and the battery is OK. */
  predicate On(cv: Converter, h: Harvester.Harvester) {
    cv.en && h.batOK
  }

  /** After the harvester's state step the converter is on exactly when it
      is enabled and the storage voltage has reached the battery-OK
      threshold. */
  lemma OnAfterStateTock(cv: Converter, h: Harvester.Harvester, now: real)
    ensures On(cv, Harvester.NextState(h, now)) <==> cv.en && V(h.stor) >= Harvester.BatOk
  {
  }

  /** Reported output voltage. */
  function OutV(cv: Converter, h: Harvester.Harvester): (v: real)
    ensures !cv.en || !h.batOK ==> v == 0.0
    ensures cv.en && h.batOK ==> v == cv.vout
  {
    if On(cv, h) then cv.vout else 0.0
  }

  /** Reported output current or power: the load's reading while on, and 0
      while off (the I and P properties share this rule). */
  function OutReading(cv: Converter, h: Harvester.Harvester, load: Option<real>): (x: Option<real>)
    ensures !cv.en || !h.batOK ==> x == Some(0.0)
    ensures cv.en && h.batOK ==> x == load
  {
    if On(cv, h) then load else Some(0.0)
  }

  /** Energy to draw from storage to deliver power `p` for `dt`: after the
      converter loss, exactly the load's energy remains. */
  function Draw(p: real, dt: real): (du: real)
    ensures du * (1.0 - ConverterLoss) == p * dt
    ensures p * dt >= 0.0 ==> du >= p * dt
  {
    var du := p / (1.0 - ConverterLoss) * dt;
    assert du * 0.9 == p * dt;
    du
  }

  /** Hands the (negative) energy change to the harvester while on; does
      nothing while off. */
  function Buck(cv: Converter, h: Harvester.Harvester, du: real, q1: real): (r: Harvester.Harvester)
    requires On(cv, h) ==>
      q1 >= 0.0 && q1 * q1 == 2.0 * (h.stor.c + h.bat.c) * (U(h.stor) + U(h.bat) + du)
    ensures !On(cv, h) ==> r == h
    ensures r.state == h.state && r.batOK == h.batOK && r.log == h.log
    ensures r.stor.c == h.stor.c && r.bat.c == h.bat.c
    ensures
      (&& On(cv, h)
       && (h.state == Harvester.Cold || h.state == Harvester.Off ||
           !Harvester.Clamps(AddQ(h.stor, q1 - Harvester.TotalQ(h)), h.bat)))
      ==> Harvester.TotalQ(r) == q1
    ensures On(cv, h) ==> r == Harvester.SinkU(h, du, q1)
    ensures On(cv, h) && (h.state == Harvester.Cold || h.state == Harvester.Off) ==>
      r.bat == h.bat && r.stor == AddQ(h.stor, q1 - Harvester.TotalQ(h))
    ensures On(cv, h) && (h.state == Harvester.Warm || h.state == Harvester.Full) ==>
      V(r.stor) == V(r.bat) <= Harvester.BatOv
    ensures
      (&& On(cv, h)
       && (h.state == Harvester.Warm || h.state == Harvester.Full)
       && Harvester.Clamps(AddQ(h.stor, q1 - Harvester.TotalQ(h)), h.bat))
      ==> V(r.stor) == Harvester.BatOv && V(r.bat) == Harvester.BatOv
  {
    if On(cv, h) then Harvester.SinkU(h, du, q1) else h
  }

  datatype Step = Step(gen: bool, cv: Converter, h: Harvester.Harvester)

  /** The tick's energy step. `loadP` is the load's power reading and `q1`
      the joint charge that holds the pair's energy minus this tick's draw.
      While off the reported power is 0, so the run goes on and nothing is
      drawn; while on, an undefined load power ends the run and a defined
      one is drawn through `SinkU`. */
  function NextU(cv: Converter, h: Harvester.Harvester, now: real, loadP: Option<real>, q1: real): (r: Step)
    requires On(cv, h) && loadP.Some? ==>
      q1 >= 0.0 &&
      q1 * q1 == 2.0 * (h.stor.c + h.bat.c) * (U(h.stor) + U(h.bat) - Draw(loadP.value, now - cv.lastTime))
    ensures r.cv == cv.(lastTime := now)
    ensures !On(cv, h) ==> r.gen && r.h == h
    ensures On(cv, h) ==> (r.gen <==> loadP.Some?)
    ensures On(cv, h) && loadP.None? ==> r.h == h
    ensures On(cv, h) && loadP.Some? ==>
      r.h == Harvester.SinkU(h, -Draw(loadP.value, now - cv.lastTime), q1)
    ensures
      (&& On(cv, h) && loadP.Some?
       && (h.state == Harvester.Cold || h.state == Harvester.Off ||
           !Harvester.Clamps(AddQ(h.stor, q1 - Harvester.TotalQ(h)), h.bat)))
      ==> Harvester.TotalQ(r.h) == q1
  {
    var cv1 := cv.(lastTime := now);
    match OutReading(cv, h, loadP)
    case None => Step(false, cv1, h)
    case Some(p) =>
      var du := Draw(p, now - cv.lastTime);
      Step(true, cv1, Buck(cv, h, -du, q1))
  }

  /** A converter that is off never touches the capacitors, whatever the
      load demands. */
  lemma OffDrawsNothing(cv: Converter, h: Harvester.Harvester, now: real, loadP: Option<real>, q1: real)
    requires !cv.en || !h.batOK
    ensures NextU(cv, h, now, loadP, q1).h == h
    ensures OutV(cv, h) == 0.0 && OutReading(cv, h, loadP) == Some(0.0)
  {
  }

  /** A running converter process; `id` is the identity under which the
      converter registers with the clock. */
  datatype Proc = Proc(id: Clock.Id, cv: Converter, h: Harvester.Harvester, clock: Clock.Clock, live: bool)

  /** Start of the converter process: tell the load the output voltage
      (through its guarded setter) and register with the clock. */
  function RunStart(id: Clock.Id, cv: Converter, h: Harvester.Harvester, load: LoadSink.Sink, clk: Clock.Clock): (r: (Proc, LoadSink.Sink))
    ensures r.0.live && r.0.id == id && r.0.clock == Clock.Start(clk, id) && r.0.cv == cv && r.0.h == h
    ensures LoadSink.AcceptsV(load) ==> r.1 == load.(v := Some(cv.vout))
    ensures !LoadSink.AcceptsV(load) ==> r.1 == load
  {
    (Proc(id, cv, h, Clock.Start(clk, id), true), LoadSink.SetV(load, cv.vout))
  }

  /** The converter process's first energy step, taken right after start
      without looking at the clock: one `NextU`, after which the process
      ends, unregistering, if the load power had no value. */
  function RunFirst(pr: Proc, now: real, loadP: Option<real>, q1: real): (r: Proc)
    requires pr.live ==> pr.id in pr.clock.req
    requires pr.live && On(pr.cv, pr.h) && loadP.Some? ==>
      q1 >= 0.0 &&
      q1 * q1 == 2.0 * (pr.h.stor.c + pr.h.bat.c) *
        (U(pr.h.stor) + U(pr.h.bat) - Draw(loadP.value, now - pr.cv.lastTime))
    ensures !pr.live ==> r == pr
    ensures r.id == pr.id
    ensures pr.live ==>
      var st := NextU(pr.cv, pr.h, now, loadP, q1);
      (r.live <==> st.gen) && r.h == st.h && r.cv == st.cv
    ensures pr.live ==> (r.live <==> !On(pr.cv, pr.h) || loadP.Some?)
    ensures pr.live && !r.live ==> r.clock == Clock.Stop(pr.clock, pr.id)
    ensures pr.live && r.live ==> r.clock == pr.clock
  {
    if !pr.live then pr
    else
      var st := NextU(pr.cv, pr.h, now, loadP, q1);
      if st.gen then Proc(pr.id, st.cv, st.h, pr.clock, true)
      else Proc(pr.id, st.cv, st.h, Clock.Stop(pr.clock, pr.id), false)
  }

  /** Every later step of the converter process: it ends, unregistering,
      when it finds the clock stopped; otherwise it waits for the tick and
      takes the same step as the first, so it ends when it is on and the
      load power has no value, and a converter that is off keeps running
      without touching the capacitors. */
  function RunTick(pr: Proc, now: real, loadP: Option<real>, q1: real): (r: Proc)
    requires pr.live ==> pr.id in pr.clock.req
    requires pr.live && Clock.Running(pr.clock) && On(pr.cv, pr.h) && loadP.Some? ==>
      q1 >= 0.0 &&
      q1 * q1 == 2.0 * (pr.h.stor.c + pr.h.bat.c) *
        (U(pr.h.stor) + U(pr.h.bat) - Draw(loadP.value, now - pr.cv.lastTime))
    ensures !pr.live ==> r == pr
    ensures r.id == pr.id
    ensures pr.live && !Clock.Running(pr.clock) ==>
      !r.live && r.h == pr.h && r.clock == Clock.Stop(pr.clock, pr.id)
    ensures pr.live && Clock.Running(pr.clock) ==>
      var st := NextU(pr.cv, pr.h, now, loadP, q1);
      (r.live <==> st.gen) && r.h == st.h && r.cv == st.cv
    ensures pr.live && Clock.Running(pr.clock) ==> (r.live <==> !On(pr.cv, pr.h) || loadP.Some?)
    ensures pr.live && Clock.Running(pr.clock) && !On(pr.cv, pr.h) ==> r.h == pr.h
    ensures pr.live && !r.live ==> r.clock == Clock.Stop(pr.clock, pr.id)
    ensures pr.live && r.live ==> r.clock == pr.clock
  {
    if !pr.live then pr
    else if !Clock.Running(pr.clock) then
      Proc(pr.id, pr.cv, pr.h, Clock.Stop(pr.clock, pr.id), false)
    else RunFirst(pr, now, loadP, q1)
  }
}

=== FILE: harvester.dfy ===
/** The input half of the bq25570 model (class `harvester`): a state
    machine over {off, cold, warm, full} re-evaluated every tock from the
    enable bit and the storage voltage, with a state log, and an energy
    transfer run every tick that turns derated input power into charge on
    the storage capacitor (boost) and shares it with the battery capacitor
    (balance), clamping both at the overvoltage threshold. The converter
    withdraws energy through `SinkU`.

    Square roots are never taken: where the original computes
    Q1 = sqrt(2*C*(U0 + dU)), the model receives Q1 as a parameter together
    with the precondition that it is that root. */
module Harvester {
  import opened Wrappers
  import opened Capacitor
  import Clock

  datatype State = Off | Cold | Warm | Full

  /** Loss (not efficiency) of the boost stage in cold start and in the
      warm and full states. */
  const LossCold: real := 0.95
  const LossWarm: real := 0.25

  /** bq25570 thresholds, in volts. */
  const Chgen: real := 1.73
  const BatOk: real := 2.5
  const BatOv: real := 5.5
  /** The full state starts at this fraction of the overvoltage threshold. */
  const FullFraction: real := 0.999

  /** State log: parallel lists of times and states. */
  datatype StateLog = StateLog(times: seq<real>, states: seq<State>)

  datatype Harvester = Harvester(
    state: State,
    stor: Cap,
    bat: Cap,
    en: bool,
    batOK: bool,
    log: StateLog,
    /** time of the previous input-power sample */
    lastTime: real)

  /** A harvester as constructed: off, battery not OK, log holding (0, off). */
  function New(stor: Cap, bat: Cap, en: bool): (h: Harvester)
    ensures h.state == Off && !h.batOK && h.en == en
    ensures h.log.times == [0.0] && h.log.states == [Off]
    ensures h.stor == stor && h.bat == bat
    ensures h.lastTime == 0.0
  {
    Harvester(Off, stor, bat, en, false, StateLog([0.0], [Off]), 0.0)
  }

  function TotalQ(h: Harvester): real {
    h.stor.q + h.bat.q
  }

  // ---------------------------------------------------------------------
  // State machine

  /** The state rule as a chain of tests, first match wins; `None` is the
      original's "no state found" branch. */
  function Classify(en: bool, v: real): (r: Option<State>)
    ensures r.Some?
    ensures r == Some(Off) <==> !en
    ensures r == Some(Cold) <==> en && v < Chgen
    ensures r == Some(Warm) <==> en && Chgen <= v < FullFraction * BatOv
    ensures r == Some(Full) <==> en && v >= FullFraction * BatOv
  {
    if !en then Some(Off)
    else if v < Chgen then Some(Cold)
    else if v < BatOv * FullFraction then Some(Warm)
    else if v >= BatOv * FullFraction then Some(Full)
    else None
  }

  /** Appends one (time, state) entry to the log. */
  function LogState(log: StateLog, now: real, s: State): (r: StateLog)
    ensures |r.times| == |log.times| + 1 && |r.states| == |log.states| + 1
    ensures r.times[..|log.times|] == log.times && r.states[..|log.states|] == log.states
    ensures r.times[|log.times|] == now && r.states[|log.states|] == s
  {
    StateLog(log.times + [now], log.states + [s])
  }

  /** One tock of the state machine: refresh the battery-OK flag, classify,
      and on a change log the old state and then the new one at `now`. */
  function NextState(h: Harvester, now: real): (r: Harvester)
    ensures r.batOK == (V(h.stor) >= BatOk)
    ensures r.state == Off <==> !h.en
    ensures r.state == Cold <==> h.en && V(h.stor) < Chgen
    ensures r.state == Warm <==> h.en && Chgen <= V(h.stor) < FullFraction * BatOv
    ensures r.state == Full <==> h.en && V(h.stor) >= FullFraction * BatOv
    ensures r.state != h.state ==>
      r.log.times == h.log.times + [now, now] && r.log.states == h.log.states + [h.state, r.state]
    ensures r.state == h.state ==> r.log == h.log
    ensures r.stor == h.stor && r.bat == h.bat && r.en == h.en && r.lastTime == h.lastTime
  {
    var s := match Classify(h.en, V(h.stor)) case Some(s) => s case None => h.state;
    var log := if s != h.state then LogState(LogState(h.log, now, h.state), now, s) else h.log;
    h.(batOK := V(h.stor) >= BatOk, state := s, log := log)
  }

  /** The log's two lists always have the same length. */
  lemma NextStateKeepsLogAligned(h: Harvester, now: real)
    requires |h.log.times| == |h.log.states|
    ensures |NextState(h, now).log.times| == |NextState(h, now).log.states|
    ensures |NextState(h, now).log.times| - |h.log.times| == (if NextState(h, now).state != h.state then 2 else 0)
  {
  }

  /** An enabled harvester whose storage voltage walks 0, 1.0, 2.0, 5.49,
      5.5 across five tocks goes cold, cold, warm, warm, full, and its log
      holds one (previous, new) pair per change. */
  lemma ThresholdWalk(stor: Cap, bat: Cap)
    ensures
      var h0 := New(stor, bat, true);
      var h1 := NextState(h0.(stor := SetV(stor, 0.0)), 1.0);
      var h2 := NextState(h1.(stor := SetV(stor, 1.0)), 2.0);
      var h3 := NextState(h2.(stor := SetV(stor, 2.0)), 3.0);
      var h4 := NextState(h3.(stor := SetV(stor, 5.49)), 4.0);
      var h5 := NextState(h4.(stor := SetV(stor, 5.5)), 5.0);
      && [h1.state, h2.state, h3.state, h4.state, h5.state] == [Cold, Cold, Warm, Warm, Full]
      && h5.log.states == [Off, Off, Cold, Cold, Warm, Warm, Full]
      && h5.log.times == [0.0, 1.0, 1.0, 3.0, 3.0, 5.0, 5.0]
  {
  }

  /** Loss factor of the current state. */
  function Loss(s: State): (l: real)
    ensures 0.0 <= l <= 1.0
    ensures l == 1.0 <==> s == Off
    ensures s == Cold ==> l == LossCold
    ensures s == Warm || s == Full ==> l == LossWarm
  {
    match s
    case Cold => LossCold
    case Warm => LossWarm
    case Full => LossWarm
    case Off => 1.0
  }

  /** Energy harvested over one tick: derated power times elapsed time. */
  function Harvested(h: Harvester, now: real, p: real): (du: real)
    ensures h.state == Off ==> du == 0.0
    ensures p >= 0.0 && now >= h.lastTime ==> du >= 0.0
  {
    p * (1.0 - Loss(h.state)) * (now - h.lastTime)
  }

  /** The harvest never exceeds the input energy P*dT of the tick. */
  lemma HarvestedAtMostInput(h: Harvester, now: real, p: real)
    requires p >= 0.0 && now >= h.lastTime
    ensures Harvested(h, now, p) <= p * (now - h.lastTime)
  {
    DeratedBetween(p, 1.0 - Loss(h.state), now - h.lastTime);
  }

  /** Derating a non-negative power over a non-negative time by a fraction
      in [0, 1] gives between 0 and the underated energy. */
  lemma DeratedBetween(p: real, f: real, dt: real)
    requires 0.0 <= f <= 1.0
    ensures p >= 0.0 && dt >= 0.0 ==> 0.0 <= p * f * dt <= p * dt
  {
    if p >= 0.0 && dt >= 0.0 {
      var e := p * dt;
      assert e >= 0.0;
      assert p * f * dt == f * e;
      assert e - f * e == (1.0 - f) * e;
    }
  }

  /** In the off state the derated power, and so the harvest, is zero. */
  lemma OffHarvestsNothing(h: Harvester, now: real, p: real)
    requires h.state == Off
    ensures Harvested(h, now, p) == 0.0
  {
  }

  // ---------------------------------------------------------------------
  // Charge transfer

  datatype Pair = Pair(stor: Cap, bat: Cap)

  lemma QuotientOfProducts(x: real, c: real, t: real, s: real)
    requires c > 0.0 && s > 0.0 && x * s == c * t
    ensures x / c == t / s
  {
    assert x == (c * t) / s;
    assert x / c == ((c * t) / s) / c;
  }

  /** Moves dq = (Q1*C2 - Q2*C1)/(C1 + C2) from the first capacitor to the
      second: total charge is kept and both end at the common voltage
      (Q1 + Q2)/(C1 + C2). */
  function Share(a: Cap, b: Cap): (r: Pair)
    ensures r.stor.c == a.c && r.bat.c == b.c
    ensures r.stor.q + r.bat.q == a.q + b.q
    ensures V(r.stor) == (a.q + b.q) / (a.c + b.c)
    ensures V(r.bat) == (a.q + b.q) / (a.c + b.c)
  {
    var s := a.c + b.c;
    var dq := (a.q * b.c - b.q * a.c) / s;
    var r := Pair(AddQ(a, -dq), AddQ(b, dq));
    assert dq * s == a.q * b.c - b.q * a.c;
    assert r.stor.q * s == a.c * (a.q + b.q);
    assert r.bat.q * s == b.c * (a.q + b.q);
    QuotientOfProducts(r.stor.q, a.c, a.q + b.q, s);
    QuotientOfProducts(r.bat.q, b.c, a.q + b.q, s);
    r
  }

  /** The overvoltage clamp fires exactly when the common voltage after
      sharing reaches the battery overvoltage threshold. */
  predicate Clamps(stor: Cap, bat: Cap) {
    stor.q + bat.q >= BatOv * (stor.c + bat.c)
  }

  /** Dividing by a positive number preserves a lower bound. */
  lemma QuotientAtLeast(t: real, s: real, b: real)
    requires s > 0.0
    ensures t / s >= b <==> t >= b * s
  {
    var x := t / s;
    assert x * s == t;
    if x >= b {
      assert (x - b) * s >= 0.0;
    } else {
      assert (b - x) * s > 0.0;
    }
  }

  lemma ClampsIffSharedVoltage(stor: Cap, bat: Cap)
    ensures Clamps(stor, bat) <==> V(Share(stor, bat).stor) >= BatOv
  {
    QuotientAtLeast(stor.q + bat.q, stor.c + bat.c, BatOv);
  }

  /** Balances storage against battery, then applies the overvoltage
      clamp, which sets both voltages to the threshold and discards the
      excess charge. */
  function Balance(stor: Cap, bat: Cap): (r: Pair)
    ensures r.stor.c == stor.c && r.bat.c == bat.c
    ensures V(r.stor) == V(r.bat) && V(r.stor) <= BatOv
    ensures !Clamps(stor, bat) ==> r.stor.q + r.bat.q == stor.q + bat.q
    ensures Clamps(stor, bat) ==> V(r.stor) == BatOv && V(r.bat) == BatOv
    ensures Clamps(stor, bat) ==> r.stor.q + r.bat.q <= stor.q + bat.q
  {
    var sh := Share(stor, bat);
    ClampsIffSharedVoltage(stor, bat);
    if V(sh.stor) >= BatOv then
      var r := Pair(SetV(sh.stor, BatOv), SetV(sh.bat, BatOv));
      assert r.stor.q + r.bat.q == BatOv * (stor.c + bat.c);
      r
    else sh
  }

  /** Sharing between capacitors already at one voltage moves no charge. */
  lemma ShareOfEqualVoltages(a: Cap, b: Cap)
    requires V(a) == V(b)
    ensures Share(a, b) == Pair(a, b)
  {
    var v := V(a);
    assert a.q == v * a.c && b.q == v * b.c;
    assert a.q * b.c - b.q * a.c == 0.0 by {
      assert a.q * b.c == v * a.c * b.c;
      assert b.q * a.c == v * b.c * a.c;
    }
    var dq := (a.q * b.c - b.q * a.c) / (a.c + b.c);
    assert dq == 0.0;
    assert AddQ(a, -dq) == a && AddQ(b, dq) == b;
  }

  /** Balancing an already balanced pair changes nothing. */
  lemma BalanceIdempotent(stor: Cap, bat: Cap)
    ensures var r := Balance(stor, bat); Balance(r.stor, r.bat) == r
  {
    var r := Balance(stor, bat);
    ShareOfEqualVoltages(r.stor, r.bat);
    ClampsIffSharedVoltage(r.stor, r.bat);
    if Clamps(r.stor, r.bat) {
      SetVOfV(r.stor);
      SetVOfV(r.bat);
    }
  }

  /** A positive common factor cancels. */
  lemma CancelFactor(k: real, x: real, y: real)
    requires k > 0.0 && k * x == k * y
    ensures x == y
  {
    assert k * (x - y) == 0.0;
  }

  /** Two capacitors at one voltage hold the energy of a single capacitor
      of their combined capacitance carrying their combined charge. */
  lemma EqualVoltageEnergy(a: Cap, b: Cap)
    requires V(a) == V(b)
    ensures 2.0 * (a.c + b.c) * (U(a) + U(b)) == (a.q + b.q) * (a.q + b.q)
  {
    var v := V(a);
    assert a.q == v * a.c && b.q == v * b.c;
    assert 2.0 * a.c * U(a) == a.q * a.q;
    assert U(a) == v * v * a.c / 2.0 by {
      assert 2.0 * a.c * U(a) == a.c * (v * v * a.c);
    }
    assert U(b) == v * v * b.c / 2.0 by {
      assert 2.0 * b.c * U(b) == b.c * (v * v * b.c);
    }
    assert (a.q + b.q) == v * (a.c + b.c);
  }

  /** Adds charge to storage; in the warm and full states the storage is
      then balanced against the battery. */
  function Boost(h: Harvester, dq: real): (r: Harvester)
    ensures r.state == h.state && r.en == h.en && r.batOK == h.batOK && r.log == h.log && r.lastTime == h.lastTime
    ensures r.stor.c == h.stor.c && r.bat.c == h.bat.c
    ensures (h.state == Cold || h.state == Off) ==> r.stor == AddQ(h.stor, dq) && r.bat == h.bat
    ensures (h.state == Warm || h.state == Full) ==>
      && V(r.stor) == V(r.bat) <= BatOv
      && (!Clamps(AddQ(h.stor, dq), h.bat) ==> TotalQ(r) == TotalQ(h) + dq)
      && (Clamps(AddQ(h.stor, dq), h.bat) ==> V(r.stor) == BatOv)
  {
    var s := AddQ(h.stor, dq);
    if h.state == Warm || h.state == Full then
      var p := Balance(s, h.bat);
      h.(stor := p.stor, bat := p.bat)
    else
      h.(stor := s)
  }

  datatype Step = Step(gen: bool, h: Harvester)

  /** The tick's energy step. `p` is the input reading; `q1` the storage
      charge that holds the storage energy plus this tick's harvest. An
      undefined reading ends the harvester's run. Cold and warm add the
      charge difference through `Boost`; full only rebalances and adds no
      new charge; off does nothing. */
  function NextQ(h: Harvester, now: real, p: Option<real>, q1: real): (r: Step)
    requires p.Some? ==> q1 >= 0.0 && q1 * q1 == 2.0 * h.stor.c * (U(h.stor) + Harvested(h, now, p.value))
    ensures r.gen <==> p.Some?
    ensures r.h.lastTime == now
    ensures r.h.state == h.state && r.h.en == h.en && r.h.batOK == h.batOK && r.h.log == h.log
    ensures r.h.stor.c == h.stor.c && r.h.bat.c == h.bat.c
    ensures p.None? || h.state == Off ==> r.h.stor == h.stor && r.h.bat == h.bat
    ensures p.Some? && h.state == Cold ==>
      U(r.h.stor) == U(h.stor) + p.value * (1.0 - Loss(h.state)) * (now - h.lastTime) && r.h.bat == h.bat
    ensures p.Some? && h.state == Warm ==>
      && V(r.h.stor) == V(r.h.bat) <= BatOv
      && (!Clamps(Cap(h.stor.c, q1), h.bat) ==> TotalQ(r.h) == q1 + h.bat.q)
      && (Clamps(Cap(h.stor.c, q1), h.bat) ==> V(r.h.stor) == BatOv && V(r.h.bat) == BatOv)
    ensures p.Some? && h.state == Full ==>
      && V(r.h.stor) == V(r.h.bat) <= BatOv
      && (!Clamps(h.stor, h.bat) ==> TotalQ(r.h) == TotalQ(h))
      && (Clamps(h.stor, h.bat) ==> V(r.h.stor) == BatOv && V(r.h.bat) == BatOv)
  {
    var h1 := h.(lastTime := now);
    match p
    case None => Step(false, h1)
    case Some(pv) =>
      EnergyOfCharge(h.stor.c, q1, U(h.stor) + Harvested(h, now, pv));
      Step(true, Credit(h1, q1))
  }

  /** The charge movement of one defined tick, by state: cold and warm
      bring the storage charge to `q1` through `Boost`, full only
      rebalances, off does nothing. */
  function Credit(h: Harvester, q1: real): (r: Harvester)
    ensures r.state == h.state && r.en == h.en && r.batOK == h.batOK && r.log == h.log
    ensures r.lastTime == h.lastTime && r.stor.c == h.stor.c && r.bat.c == h.bat.c
    ensures h.state == Off ==> r == h
    ensures h.state == Cold ==> r.stor == Cap(h.stor.c, q1) && r.bat == h.bat
    ensures h.state == Warm ==>
      && V(r.stor) == V(r.bat) <= BatOv
      && (!Clamps(Cap(h.stor.c, q1), h.bat) ==> TotalQ(r) == q1 + h.bat.q)
      && (Clamps(Cap(h.stor.c, q1), h.bat) ==> V(r.stor) == BatOv && V(r.bat) == BatOv)
    ensures h.state == Full ==> Pair(r.stor, r.bat) == Balance(h.stor, h.bat)
  {
    var dq := q1 - h.stor.q;
    match h.state
    case Cold =>
      var r := Boost(h, dq);
      assert r.stor == Cap(h.stor.c, q1);
      r
    case Warm =>
      assert AddQ(h.stor, dq) == Cap(h.stor.c, q1);
      Boost(h, dq)
    case Full =>
      var b := Balance(h.stor, h.bat);
      h.(stor := b.stor, bat := b.bat)
    case Off => h
  }

  /** A capacitor holding charge q1, with q1^2 = 2*C*E, stores energy E. */
  lemma EnergyOfCharge(c: PosReal, q1: real, e: real)
    requires q1 * q1 == 2.0 * c * e
    ensures U(Cap(c, q1)) == e
  {
    assert 2.0 * c * U(Cap(c, q1)) == q1 * q1;
    CancelFactor(2.0 * c, U(Cap(c, q1)), e);
  }

  /** In the full state the tick's harvest is not credited: whatever the
      input power, the pair ends exactly as a plain balance leaves it. */
  lemma FullDropsHarvest(h: Harvester, now: real, p: real, q1: real)
    requires h.state == Full
    requires q1 >= 0.0 && q1 * q1 == 2.0 * h.stor.c * (U(h.stor) + Harvested(h, now, p))
    ensures var r := NextQ(h, now, Some(p), q1).h; Pair(r.stor, r.bat) == Balance(h.stor, h.bat)
  {
  }

  /** Withdraws (for negative `du`) or adds energy to the storage and
      battery pair treated as one capacitor: `q1` is the joint charge that
      holds their joint energy plus `du`, and the difference goes through
      `Boost`. */
  function SinkU(h: Harvester, du: real, q1: real): (r: Harvester)
    requires q1 >= 0.0 && q1 * q1 == 2.0 * (h.stor.c + h.bat.c) * (U(h.stor) + U(h.bat) + du)
    ensures r.state == h.state && r.en == h.en && r.batOK == h.batOK && r.log == h.log && r.lastTime == h.lastTime
    ensures r.stor.c == h.stor.c && r.bat.c == h.bat.c
    ensures (h.state == Cold || h.state == Off || !Clamps(AddQ(h.stor, q1 - TotalQ(h)), h.bat)) ==>
      TotalQ(r) == q1
    ensures (h.state == Cold || h.state == Off) ==>
      r.bat == h.bat && r.stor == AddQ(h.stor, q1 - TotalQ(h))
    ensures (h.state == Warm || h.state == Full) ==> V(r.stor) == V(r.bat) <= BatOv
    ensures (h.state == Warm || h.state == Full) && Clamps(AddQ(h.stor, q1 - TotalQ(h)), h.bat) ==>
      V(r.stor) == BatOv && V(r.bat) == BatOv
  {
    Boost(h, q1 - TotalQ(h))
  }

  /** In the warm or full state, from any pair (balanced or not, as right
      after the tock that moves cold to warm), and unless the clamp fires, `SinkU` leaves the pair holding exactly the
      energy asked for: the joint energy plus `du`. Here `du` is expressed
      through the joint charge `q1` it leads to. */
  lemma SinkUConservesEnergy(h: Harvester, q1: real)
    requires q1 >= 0.0
    requires h.state == Warm || h.state == Full
    requires !Clamps(AddQ(h.stor, q1 - TotalQ(h)), h.bat)
    ensures var du := q1 * q1 / (2.0 * (h.stor.c + h.bat.c)) - (U(h.stor) + U(h.bat));
      var r := SinkU(h, du, q1);
      U(r.stor) + U(r.bat) == U(h.stor) + U(h.bat) + du
  {
    var k := 2.0 * (h.stor.c + h.bat.c);
    var du := q1 * q1 / k - (U(h.stor) + U(h.bat));
    assert q1 * q1 == k * (U(h.stor) + U(h.bat) + du);
    var r := SinkU(h, du, q1);
    assert V(r.stor) == V(r.bat) && TotalQ(r) == q1;
    assert r.stor.c + r.bat.c == h.stor.c + h.bat.c;
    EnergyOfBalancedPair(r.stor, r.bat, q1, U(h.stor) + U(h.bat) + du);
  }

  /** A balanced pair carrying joint charge q1, with q1^2 = 2*C*E for the
      joint capacitance C, stores energy E. */
  lemma EnergyOfBalancedPair(a: Cap, b: Cap, q1: real, e: real)
    requires V(a) == V(b) && a.q + b.q == q1
    requires q1 * q1 == 2.0 * (a.c + b.c) * e
    ensures U(a) + U(b) == e
  {
    EqualVoltageEnergy(a, b);
    CancelFactor(2.0 * (a.c + b.c), U(a) + U(b), e);
  }

  // ---------------------------------------------------------------------
  // The two processes, as steps

  /** A running harvester process; `id` is the identity under which the
      harvester registers with the clock. */
  datatype Proc = Proc(id: Clock.Id, h: Harvester, clock: Clock.Clock, live: bool)

  /** Start of the tick process: precharge the battery to the main boost
      threshold and register with the clock. */
  function RunStart(id: Clock.Id, h: Harvester, clk: Clock.Clock): (r: Proc)
    ensures V(r.h.bat) == Chgen && r.h.bat.c == h.bat.c
    ensures r.h == h.(bat := r.h.bat)
    ensures r.id == id && r.clock == Clock.Start(clk, id)
    ensures r.live
  {
    Proc(id, h.(bat := SetV(h.bat, Chgen)), Clock.Start(clk, id), true)
  }

  /** One energy step of the tick process (the first is taken at start,
      the rest one per tick); once the input has no value the process
      unregisters and ends. */
  function RunTick(pr: Proc, now: real, p: Option<real>, q1: real): (r: Proc)
    requires pr.live ==> pr.id in pr.clock.req
    requires pr.live && p.Some? ==>
      q1 >= 0.0 && q1 * q1 == 2.0 * pr.h.stor.c * (U(pr.h.stor) + Harvested(pr.h, now, p.value))
    ensures !pr.live ==> r == pr
    ensures r.id == pr.id
    ensures pr.live ==> (r.live <==> p.Some?)
    ensures pr.live ==> r.h == NextQ(pr.h, now, p, q1).h
    ensures pr.live && p.None? ==> r.clock == Clock.Stop(pr.clock, pr.id) && r.h.stor == pr.h.stor && r.h.bat == pr.h.bat
    ensures pr.live && p.Some? ==> r.clock == pr.clock
  {
    if !pr.live then pr
    else
      var st := NextQ(pr.h, now, p, q1);
      if st.gen then Proc(pr.id, st.h, pr.clock, true)
      else Proc(pr.id, st.h, Clock.Stop(pr.clock, pr.id), false)
  }

  /** One tock of the state process, which runs while the clock runs: it
      reclassifies the harvester from the storage voltage and, on a change,
      logs the transition; once the clock has stopped it does nothing. */
  function StateTock(h: Harvester, clk: Clock.Clock, now: real): (r: Harvester)
    ensures !Clock.Running(clk) ==> r == h
    ensures Clock.Running(clk) ==> r == NextState(h, now)
    ensures Clock.Running(clk) ==> Classify(h.en, V(h.stor)) == Some(r.state)
    ensures Clock.Running(clk) ==> r.batOK == (V(h.stor) >= BatOk) && r.stor == h.stor && r.bat == h.bat
  {
    if Clock.Running(clk) then NextState(h, now) else h
  }
}

=== FILE: power_source.dfy ===
/** The file-based power source of the simulator (class `Psrc`): a series
    of (time, power) samples, a cursor holding the bracketing pair
    (previous, next) that a background process advances as simulated time
    passes, linear interpolation between the pair, a utilization
    accumulator and an enable gate. Loading the samples from a file is not
    modelled: the series is given. */
module PowerSource {
  import opened Wrappers

  datatype Sample = Sample(time: real, data: real)

  /** Sample times strictly increase. */
  predicate Increasing(samples: seq<Sample>) {
    forall k :: 0 < k < |samples| ==> samples[k - 1].time < samples[k].time
  }

  /** The accumulator stops once it has passed this total. */
  const UtotCap: real := 0.3571

  /** `pos` is the cursor: the previous sample is samples[pos - 1] and the
      next one samples[pos], or none once pos reaches the end. */
  datatype Source = Source(samples: seq<Sample>, pos: nat, en: bool, utot: real, nowP: real)

  predicate Valid(src: Source) {
    && 1 <= src.pos <= |src.samples|
    && Increasing(src.samples)
  }

  function Prev(src: Source): Sample
    requires 1 <= src.pos <= |src.samples|
  {
    src.samples[src.pos - 1]
  }

  function Next(src: Source): Option<Sample>
    requires 1 <= src.pos <= |src.samples|
  {
    if src.pos < |src.samples| then Some(src.samples[src.pos]) else None
  }

  /** The source once its process has primed the cursor at time 0: the
      previous sample is the first one, the next is the second, if any. */
  function Start(samples: seq<Sample>, en: bool): (r: Source)
    requires |samples| >= 1
    ensures r.samples == samples && r.pos == 1
    ensures Increasing(samples) ==> Valid(r)
    ensures Prev(r) == samples[0]
    ensures Next(r).None? <==> |samples| == 1
    ensures Next(r).Some? ==> Next(r).value == samples[1]
    ensures r.utot == 0.0 && r.nowP == 0.0 && r.en == en
  {
    Source(samples, 1, en, 0.0, 0.0)
  }

  /** The delay the process sleeps before moving the cursor on. */
  function Sleep(src: Source): (d: real)
    requires 1 <= src.pos <= |src.samples| && Next(src).Some?
    ensures Prev(src).time + d == Next(src).value.time
    ensures Increasing(src.samples) ==> d > 0.0
  {
    Next(src).value.time - Prev(src).time
  }

  /** One step of the cursor: the next sample becomes the previous one and
      the one after it (or nothing, at the end) becomes the next. */
  function Advance(src: Source): (r: Source)
    requires 1 <= src.pos <= |src.samples| && Next(src).Some?
    ensures 1 <= r.pos <= |r.samples|
    ensures Valid(src) ==> Valid(r)
    ensures Prev(r) == Next(src).value
    ensures r.samples == src.samples && r.pos == src.pos + 1
    ensures r.en == src.en && r.utot == src.utot && r.nowP == src.nowP
  {
    src.(pos := src.pos + 1)
  }

  /** Linear interpolation between two samples at time `now`: the point
      (now, p) lies on the line through the two samples. */
  function Interpolate(a: Sample, b: Sample, now: real): (p: real)
    requires a.time < b.time
    ensures (p - a.data) * (b.time - a.time) == (b.data - a.data) * (now - a.time)
    ensures now == a.time ==> p == a.data
    ensures now == b.time ==> p == b.data
    ensures a.time <= now <= b.time ==>
      (a.data <= b.data ==> a.data <= p <= b.data) &&
      (b.data <= a.data ==> b.data <= p <= a.data)
  {
    var delP := b.data - a.data;
    var delT := b.time - a.time;
    var delNow := now - a.time;
    var p := a.data + delP / delT * delNow;
    InterpolateBetween(a, b, now, p);
    p
  }

  lemma InterpolateBetween(a: Sample, b: Sample, now: real, p: real)
    requires a.time < b.time
    requires p == a.data + (b.data - a.data) / (b.time - a.time) * (now - a.time)
    ensures (p - a.data) * (b.time - a.time) == (b.data - a.data) * (now - a.time)
    ensures now == a.time ==> p == a.data
    ensures now == b.time ==> p == b.data
    ensures a.time <= now <= b.time ==>
      (a.data <= b.data ==> a.data <= p <= b.data) &&
      (b.data <= a.data ==> b.data <= p <= a.data)
  {
    var delT := b.time - a.time;
    var lam := (now - a.time) / delT;
    assert lam * delT == now - a.time;
    assert p == a.data + (b.data - a.data) * lam;
    assert (p - a.data) * delT == (b.data - a.data) * (lam * delT);
    if now == b.time {
      assert lam == 1.0;
    }
    if a.time <= now <= b.time {
      assert 0.0 <= lam <= 1.0;
      if a.data <= b.data {
        assert 0.0 <= (b.data - a.data) * lam <= b.data - a.data;
      } else {
        assert b.data - a.data <= (b.data - a.data) * lam <= 0.0;
      }
    }
  }

  datatype Reading = Reading(value: Option<real>, src: Source)

  /** The interpolated power at `now`, or no value once the series is
      exhausted. A defined reading is remembered and added to the
      utilization total while that total has not passed its cap. */
  function Query(src: Source, now: real): (r: Reading)
    requires Valid(src)
    ensures r.value.None? <==> Next(src).None?
    ensures r.value.None? ==> r.src == src
    ensures r.value.Some? ==>
      && r.value.value == Interpolate(Prev(src), Next(src).value, now)
      && r.src.samples == src.samples && r.src.pos == src.pos && r.src.en == src.en
      && r.src.nowP == r.value.value
      && (src.utot > UtotCap ==> r.src.utot == src.utot)
      && (src.utot <= UtotCap ==> r.src.utot == src.utot + r.value.value)
  {
    match Next(src)
    case None => Reading(None, src)
    case Some(next) =>
      var p := Interpolate(Prev(src), next, now);
      Reading(Some(p), src.(nowP := p, utot := src.utot + (if src.utot <= UtotCap then p else 0.0)))
  }

  /** The gated reading: zero, with no side effect, while disabled. */
  function P(src: Source, now: real): (r: Reading)
    requires Valid(src)
    ensures !src.en ==> r == Reading(Some(0.0), src)
    ensures src.en ==> r == Query(src, now)
  {
    if src.en then Query(src, now) else Reading(Some(0.0), src)
  }

  /** Once the accumulator has passed its cap it never changes again. */
  lemma UtotFrozenAfterCap(src: Source, now: real)
    requires Valid(src) && src.utot > UtotCap
    ensures P(src, now).src.utot == src.utot
  {
  }

  /** The simulated times at which the process moves the cursor, stepping
      it as the process does: it starts at 0 with the cursor primed, and
      each pass sleeps the gap to the next sample and advances, so
      samples[k] becomes the previous sample at samples[k].time - samples[0].time. */
  method WakeTimes(samples: seq<Sample>) returns (ts: seq<real>)
    requires |samples| >= 1
    ensures |ts| == |samples|
    ensures forall k :: 0 <= k < |ts| ==> ts[k] == samples[k].time - samples[0].time
    ensures Increasing(samples) ==> forall k :: 0 < k < |ts| ==> ts[k - 1] < ts[k]
  {
    var src := Start(samples, true);
    ts := [0.0];
    var now := 0.0;
    while Next(src).Some?
      invariant 1 <= src.pos <= |src.samples| && src.samples == samples
      invariant |ts| == src.pos
      invariant now == Prev(src).time - samples[0].time
      invariant forall j :: 0 <= j < |ts| ==> ts[j] == samples[j].time - samples[0].time
      decreases |samples| - src.pos
    {
      now := now + Sleep(src);
      src := Advance(src);
      ts := ts + [now];
    }
  }

  /** How many of `rest` the process has reached by `now`, counting from
      the start of the series at `t0`. */
  function Reached(rest: seq<Sample>, t0: real, now: real): (n: nat)
    ensures n <= |rest|
  {
    if |rest| == 0 then 0
    else if rest[0].time - t0 <= now then 1 + Reached(rest[1..], t0, now)
    else 0
  }

  /** The cursor position held at simulated time `now`. */
  function PosAt(samples: seq<Sample>, now: real): (pos: nat)
    requires |samples| >= 1
    ensures 1 <= pos <= |samples|
  {
    1 + Reached(samples[1..], samples[0].time, now)
  }

  lemma {:induction false} ReachedBrackets(rest: seq<Sample>, t0: real, now: real, before: real)
    requires before - t0 <= now
    requires Increasing(rest)
    requires |rest| > 0 ==> before < rest[0].time
    ensures var n := Reached(rest, t0, now);
      && (n > 0 ==> rest[n - 1].time - t0 <= now)
      && (n < |rest| ==> now < rest[n].time - t0)
  {
    if |rest| > 0 && rest[0].time - t0 <= now {
      var tail := rest[1..];
      assert Increasing(tail) by {
        forall k | 0 < k < |tail|
          ensures tail[k - 1].time < tail[k].time
        {
          assert tail[k - 1] == rest[k] && tail[k] == rest[k + 1];
        }
      }
      ReachedBrackets(tail, t0, now, rest[0].time);
      var m := Reached(tail, t0, now);
      assert Reached(rest, t0, now) == 1 + m;
      if m > 0 {
        assert rest[m] == tail[m - 1];
      }
      if m < |tail| {
        assert rest[m + 1] == tail[m];
      }
    }
  }

  /** At any time from the start of the series on, the cursor the process
      holds brackets the current time: the previous sample has been
      reached and the next one has not. */
  lemma CursorBracketsNow(samples: seq<Sample>, now: real)
    requires |samples| >= 1 && Increasing(samples) && now >= 0.0
    ensures var src := Source(samples, PosAt(samples, now), true, 0.0, 0.0);
      && Prev(src).time - samples[0].time <= now
      && (Next(src).Some? ==> now < Next(src).value.time - samples[0].time)
  {
    var rest := samples[1..];
    assert Increasing(rest) by {
      forall k | 0 < k < |rest|
        ensures rest[k - 1].time < rest[k].time
      {
        assert rest[k - 1] == samples[k] && rest[k] == samples[k + 1];
      }
    }
    ReachedBrackets(rest, samples[0].time, now, samples[0].time);
    var n := Reached(rest, samples[0].time, now);
    if n > 0 {
      assert samples[n] == rest[n - 1];
    }
    if n < |rest| {
      assert samples[n + 1] == rest[n];
    }
  }

  /** The series (0, 0), (1, 10), (2, 0): half-way through either segment
      the reading is 5, and past the last sample there is no value. */
  lemma TriangleSeries()
    ensures var s := [Sample(0.0, 0.0), Sample(1.0, 10.0), Sample(2.0, 0.0)];
      && PosAt(s, 0.5) == 1 && Query(Source(s, 1, true, 0.0, 0.0), 0.5).value == Some(5.0)
      && PosAt(s, 1.5) == 2 && Query(Source(s, 2, true, 0.0, 0.0), 1.5).value == Some(5.0)
      && PosAt(s, 2.5) == 3 && Query(Source(s, 3, true, 0.0, 0.0), 2.5).value == None
  {
    var s := [Sample(0.0, 0.0), Sample(1.0, 10.0), Sample(2.0, 0.0)];
    assert s[1..] == [Sample(1.0, 10.0), Sample(2.0, 0.0)];
    assert s[1..][1..] == [Sample(2.0, 0.0)];
    assert s[1..][1..][1..] == [];
  }
}

=== FILE: probes.dfy ===
/** The two helper processes of the simulator: the probe (class `scope`),
    which records one (time, value) sample of some quantity per tock until
    the value becomes undefined or the clock stops, and the enable toggler
    (class `OnOff`), which flips an enable flag after each delay of a
    schedule until the schedule ends or the clock stops. The probed
    quantity and the clock's running flag are supplied as observations. */
module Probes {
  import opened Wrappers

  // ---------------------------------------------------------------------
  // Scope

  /** `collect` is false once the probe has become inert. */
  datatype Scope = Scope(collect: bool, times: seq<real>, data: seq<real>)

  /** What one loop iteration sees: the clock's running flag at the loop
      test, and the time and probed value at the following tock. */
  datatype Observation = Observation(running: bool, time: real, value: Option<real>)

  function NewScope(): (sc: Scope)
    ensures sc.collect && sc.times == [] && sc.data == []
  {
    Scope(true, [], [])
  }

  /** One iteration of the probe loop. */
  function ScopeStep(sc: Scope, o: Observation): (r: Scope)
    ensures !sc.collect ==> r == sc
    ensures sc.collect && o.running && o.value.Some? ==>
      r.collect && r.times == sc.times + [o.time] && r.data == sc.data + [o.value.value]
    ensures sc.collect && !(o.running && o.value.Some?) ==>
      !r.collect && r.times == sc.times && r.data == sc.data
  {
    if !sc.collect || !o.running then sc.(collect := false)
    else match o.value
      case Some(x) => Scope(true, sc.times + [o.time], sc.data + [x])
      case None => sc.(collect := false)
  }

  /** The probe over a sequence of tocks: the lists only grow, and always
      by the same number of entries. */
  function ScopeRun(sc: Scope, obs: seq<Observation>): (r: Scope)
    ensures |r.times| >= |sc.times|
    ensures |r.times| - |sc.times| == |r.data| - |sc.data|
    decreases |obs|
  {
    if |obs| == 0 then sc else ScopeRun(ScopeStep(sc, obs[0]), obs[1..])
  }

  /** Reference: the number of leading observations taken while the clock
      runs and the value is defined. */
  function Collectable(obs: seq<Observation>): (n: nat)
    ensures n <= |obs|
    ensures forall k :: 0 <= k < n ==> obs[k].running && obs[k].value.Some?
    ensures n < |obs| ==> !(obs[n].running && obs[n].value.Some?)
  {
    if |obs| == 0 || !(obs[0].running && obs[0].value.Some?) then 0
    else 1 + Collectable(obs[1..])
  }

  /** An inert probe stays inert and records nothing more. */
  lemma {:induction false} InertScopeStays(sc: Scope, obs: seq<Observation>)
    requires !sc.collect
    ensures ScopeRun(sc, obs) == sc
    decreases |obs|
  {
    if |obs| > 0 {
      InertScopeStays(ScopeStep(sc, obs[0]), obs[1..]);
    }
  }

  /** A collecting probe records exactly the leading collectable
      observations, in order, appended to what it held; the time and data
      lists keep their lengths in step. */
  lemma {:induction false} ScopeRecordsCollectablePrefix(sc: Scope, obs: seq<Observation>)
    requires sc.collect
    ensures var r := ScopeRun(sc, obs); var n := Collectable(obs);
      && |r.times| == |sc.times| + n && |r.data| == |sc.data| + n
      && r.times[..|sc.times|] == sc.times && r.data[..|sc.data|] == sc.data
      && (forall k :: 0 <= k < n ==> r.times[|sc.times| + k] == obs[k].time)
      && (forall k :: 0 <= k < n ==> r.data[|sc.data| + k] == obs[k].value.value)
      && (r.collect <==> n == |obs|)
    decreases |obs|
  {
    if |obs| > 0 {
      var s1 := ScopeStep(sc, obs[0]);
      if s1.collect {
        ScopeRecordsCollectablePrefix(s1, obs[1..]);
        var r := ScopeRun(sc, obs);
        assert r == ScopeRun(s1, obs[1..]);
        var n := Collectable(obs);
        assert n == 1 + Collectable(obs[1..]);
        forall k | 0 <= k < n
          ensures r.times[|sc.times| + k] == obs[k].time
          ensures r.data[|sc.data| + k] == obs[k].value.value
        {
          if k > 0 {
            assert obs[1..][k - 1] == obs[k];
            assert r.times[|s1.times| + (k - 1)] == obs[k].time;
          }
        }
        assert r.times[..|sc.times|] == r.times[..|s1.times|][..|sc.times|];
        assert r.data[..|sc.data|] == r.data[..|s1.data|][..|sc.data|];
      } else {
        InertScopeStays(s1, obs[1..]);
      }
    }
  }

  // ---------------------------------------------------------------------
  // OnOff

  /** Total of a list of delays. */
  function Elapsed(delays: seq<real>): real
    decreases |delays|
  {
    if |delays| == 0 then 0.0 else Elapsed(delays[..|delays| - 1]) + delays[|delays| - 1]
  }

  /** Reference: how many leading wake-ups find the clock running. */
  function Toggles(running: seq<bool>): (n: nat)
    ensures n <= |running|
  {
    if |running| == 0 || !running[0] then 0 else 1 + Toggles(running[1..])
  }

  /** A run of k leading wake-ups that find the clock running gives at
      least k toggles. */
  lemma {:induction false} TogglesAtLeast(running: seq<bool>, k: nat)
    requires k <= |running|
    requires forall j :: 0 <= j < k ==> running[j]
    ensures Toggles(running) >= k
    decreases k
  {
    if k > 0 {
      var tail := running[1..];
      forall j | 0 <= j < k - 1
        ensures tail[j]
      {
        assert tail[j] == running[j + 1];
      }
      TogglesAtLeast(tail, k - 1);
    }
  }

  lemma {:induction false} TogglesOfPrefix(running: seq<bool>, k: nat)
    requires k <= |running|
    requires forall j :: 0 <= j < k ==> running[j]
    requires k == |running| || !running[k]
    ensures Toggles(running) == k
    decreases k
  {
    if k > 0 {
      var tail := running[1..];
      forall j | 0 <= j < k - 1
        ensures tail[j]
      {
        assert tail[j] == running[j + 1];
      }
      if k < |running| {
        assert tail[k - 1] == running[k];
      }
      TogglesOfPrefix(tail, k - 1);
    }
  }

  /** The toggler's loop. `running[k]` is the clock's running flag when the
      k-th delay has elapsed; the first one that finds the clock stopped
      ends the loop. Returns the final flag and the times (from the start)
      of the toggles: the flag ends flipped once per wake-up that found the
      clock running, and the k-th flip happens after the first k+1 delays.
      Every delay the loop reaches, up to and including the one whose
      wake-up ends it, must be non-negative, as the scheduler rejects a
      negative timeout; so the flips come in time order. */
  method OnOffRun(en: bool, delays: seq<real>, running: seq<bool>) returns (flag: bool, at: seq<real>)
    requires |running| == |delays|
    requires forall k :: 0 <= k < |delays| && k <= Toggles(running) ==> delays[k] >= 0.0
    ensures flag == (if Toggles(running) % 2 == 0 then en else !en)
    ensures |at| == Toggles(running)
    ensures forall k :: 0 <= k < |at| ==> at[k] == Elapsed(delays[..k + 1])
    ensures forall k :: 0 < k < |at| ==> at[k - 1] <= at[k]
  {
    flag := en;
    at := [];
    var t := 0.0;
    var k := 0;
    while k < |delays| && running[k]
      invariant 0 <= k <= |delays|
      invariant forall j :: 0 <= j < k ==> running[j]
      invariant |at| == k
      invariant t == Elapsed(delays[..k])
      invariant forall j :: 0 <= j < k ==> at[j] == Elapsed(delays[..j + 1])
      invariant forall j :: 0 < j < k ==> at[j - 1] <= at[j]
      invariant k > 0 ==> at[k - 1] == t
      invariant flag == (if k % 2 == 0 then en else !en)
    {
      assert delays[..k + 1][..k] == delays[..k];
      TogglesAtLeast(running, k);
      t := t + delays[k];
      flag := !flag;
      at := at + [t];
      k := k + 1;
    }
    TogglesOfPrefix(running, k);
  }
}

=== FILE: sink.dfy ===
/** The fixed DC load of the simulator (class `sink`): an Ohm's-law node
    that holds up to three optional quantities, current I, voltage V and
    resistance R, of which two are meant to be given and the third derived.
    Reads on a disabled sink report an idle load. */
module LoadSink {
  import opened Wrappers

  /** Resistance reported by a disabled sink: effectively an open circuit. */
  const OpenCircuit: real := 1000000000000000.0

  datatype Sink = Sink(i: Option<real>, v: Option<real>, r: Option<real>, en: bool)

  /** A sink as constructed: the given quantities, enabled. */
  function New(i: Option<real>, v: Option<real>, r: Option<real>): (s: Sink)
    ensures s.en
    ensures s.i == i && s.v == v && s.r == r
  {
    Sink(i, v, r, true)
  }

  /** Number of quantities that are defined. */
  function Defined(s: Sink): (n: nat)
    ensures n <= 3
    ensures n == 0 <==> s.i.None? && s.v.None? && s.r.None?
    ensures n == 3 <==> s.i.Some? && s.v.Some? && s.r.Some?
  {
    (if s.i.Some? then 1 else 0) + (if s.v.Some? then 1 else 0) + (if s.r.Some? then 1 else 0)
  }

  // ---------------------------------------------------------------------
  // Getters. A derived quantity needs both of the other two; a division by
  // zero would raise in the original, so it is the caller's obligation.

  /** Resistance: the given one, else V/I. */
  function GetR(s: Sink): (r: Option<real>)
    requires s.r.None? && s.i.Some? && s.v.Some? ==> s.i.value != 0.0
    ensures !s.en ==> r == Some(OpenCircuit)
    ensures s.en ==> (r.Some? <==> s.r.Some? || (s.i.Some? && s.v.Some?))
    ensures s.en && s.r.Some? ==> r == s.r
    ensures s.en && s.r.None? && r.Some? ==> r.value * s.i.value == s.v.value
  {
    var x :=
      if s.r.Some? then s.r
      else if s.i.Some? && s.v.Some? then Some(s.v.value / s.i.value)
      else None;
    if s.en then x else Some(OpenCircuit)
  }

  /** Voltage: the given one, else I*R. */
  function GetV(s: Sink): (r: Option<real>)
    ensures !s.en ==> r == Some(0.0)
    ensures s.en ==> (r.Some? <==> s.v.Some? || (s.i.Some? && s.r.Some?))
    ensures s.en && s.v.Some? ==> r == s.v
    ensures s.en && s.v.None? && r.Some? ==> r.value == s.i.value * s.r.value
  {
    var x :=
      if s.v.Some? then s.v
      else if s.i.Some? && s.r.Some? then Some(s.i.value * s.r.value)
      else None;
    if s.en then x else Some(0.0)
  }

  /** Current: the given one, else V/R. */
  function GetI(s: Sink): (r: Option<real>)
    requires s.i.None? && s.v.Some? && s.r.Some? ==> s.r.value != 0.0
    ensures !s.en ==> r == Some(0.0)
    ensures s.en ==> (r.Some? <==> s.i.Some? || (s.v.Some? && s.r.Some?))
    ensures s.en && s.i.Some? ==> r == s.i
    ensures s.en && s.i.None? && r.Some? ==> r.value * s.r.value == s.v.value
  {
    var x :=
      if s.i.Some? then s.i
      else if s.v.Some? && s.r.Some? then Some(s.v.value / s.r.value)
      else None;
    if s.en then x else Some(0.0)
  }

  /** Power from whichever pair is available: V*I, else V^2/R, else I^2*R. */
  function GetP(s: Sink): (r: Option<real>)
    requires !(s.v.Some? && s.i.Some?) && s.v.Some? && s.r.Some? ==> s.r.value != 0.0
    ensures !s.en ==> r == Some(0.0)
    ensures s.en ==> (r.Some? <==> Defined(s) >= 2)
  {
    var x :=
      if s.v.Some? && s.i.Some? then Some(s.v.value * s.i.value)
      else if s.v.Some? && s.r.Some? then Some(s.v.value * s.v.value / s.r.value)
      else if s.i.Some? && s.r.Some? then Some(s.i.value * s.i.value * s.r.value)
      else None;
    if s.en then x else Some(0.0)
  }

  /** Whenever the power is defined it is the product of the voltage and
      current getters (Joule's law), whichever pair it was computed from. */
  lemma PowerIsVoltageTimesCurrent(s: Sink)
    requires s.i.None? && s.v.Some? && s.r.Some? ==> s.r.value != 0.0
    requires GetP(s).Some?
    ensures GetV(s).Some? && GetI(s).Some?
    ensures GetP(s).value == GetV(s).value * GetI(s).value
  {
    if s.en && !(s.v.Some? && s.i.Some?) {
      if s.v.Some? {
        var v, rr := s.v.value, s.r.value;
        assert GetI(s).value * rr == v;
        assert GetP(s).value * rr == v * v;
        assert (GetV(s).value * GetI(s).value) * rr == v * v;
      }
    }
  }

  // ---------------------------------------------------------------------
  // Setters. A rejected write leaves the sink unchanged.

  /** The R setter accepts a write when R is already given, or when exactly
      one of V and I is. */
  predicate AcceptsR(s: Sink) {
    s.r.Some? || (s.v.Some? && s.i.None?) || (s.v.None? && s.i.Some?)
  }

  function SetR(s: Sink, x: real): (r: Sink)
    ensures AcceptsR(s) ==> r == s.(r := Some(x))
    ensures !AcceptsR(s) ==> r == s
    ensures s.v.Some? && s.i.Some? && s.r.None? ==> r == s
    ensures Defined(s) <= 2 ==> Defined(r) <= 2
  {
    if s.r.Some? then s.(r := Some(x))
    else if s.v.Some? && s.i.None? then s.(r := Some(x))
    else if s.v.None? && s.i.Some? then s.(r := Some(x))
    else s
  }

  /** The V setter accepts a write when V is already given, or when exactly
      one of I and R is. */
  predicate AcceptsV(s: Sink) {
    s.v.Some? || (s.i.Some? && s.r.None?) || (s.i.None? && s.r.Some?)
  }

  function SetV(s: Sink, x: real): (r: Sink)
    ensures AcceptsV(s) ==> r == s.(v := Some(x))
    ensures !AcceptsV(s) ==> r == s
    ensures s.i.Some? && s.r.Some? && s.v.None? ==> r == s
    ensures Defined(s) <= 2 ==> Defined(r) <= 2
  {
    if s.v.Some? then s.(v := Some(x))
    else if s.i.Some? && s.r.None? then s.(v := Some(x))
    else if s.i.None? && s.r.Some? then s.(v := Some(x))
    else s
  }

  /** The I setter exactly as the original writes it: its first guard tests
      V where the sibling setters test their own quantity, so it accepts a
      write whenever V or R is given, and its second branch is dead. */
  function SetIAsWritten(s: Sink, x: real): (r: Sink)
    ensures s.v.Some? || s.r.Some? ==> r == s.(i := Some(x))
    ensures s.v.None? && s.r.None? ==> r == s
  {
    if s.v.Some? then s.(i := Some(x))
    else if s.v.Some? && s.r.None? then s.(i := Some(x))
    else if s.v.None? && s.r.Some? then s.(i := Some(x))
    else s
  }

  /** From V and R given, the as-written I setter defines all three. */
  lemma SetIAsWrittenOverDetermines(s: Sink, x: real)
    requires s.v.Some? && s.r.Some? && s.i.None?
    ensures Defined(s) == 2
    ensures Defined(SetIAsWritten(s, x)) == 3
  {
  }

  /** The concrete witness: V = 2.5, R = 50 given, then I := 0.05. */
  lemma SetIAsWrittenCounterexample()
    ensures var s := New(None, Some(2.5), Some(50.0));
      Defined(s) == 2 && Defined(SetIAsWritten(s, 0.05)) == 3
  {
    SetIAsWrittenOverDetermines(New(None, Some(2.5), Some(50.0)), 0.05);
  }

  /** The I setter with the guard the sibling setters use: accept when I is
      already given, or when exactly one of V and R is. */
  predicate AcceptsI(s: Sink) {
    s.i.Some? || (s.v.Some? && s.r.None?) || (s.v.None? && s.r.Some?)
  }

  function SetI(s: Sink, x: real): (r: Sink)
    ensures AcceptsI(s) ==> r == s.(i := Some(x))
    ensures !AcceptsI(s) ==> r == s
    ensures s.v.Some? && s.r.Some? && s.i.None? ==> r == s
    ensures Defined(s) <= 2 ==> Defined(r) <= 2
  {
    if s.i.Some? then s.(i := Some(x))
    else if s.v.Some? && s.r.None? then s.(i := Some(x))
    else if s.v.None? && s.r.Some? then s.(i := Some(x))
    else s
  }

  /** Deleting a quantity makes it undefined and touches nothing else. */
  function ClearR(s: Sink): (r: Sink)
    ensures r.r.None? && r.i == s.i && r.v == s.v && r.en == s.en
    ensures Defined(r) == Defined(s) - (if s.r.Some? then 1 else 0)
  {
    s.(r := None)
  }

  function ClearV(s: Sink): (r: Sink)
    ensures r.v.None? && r.i == s.i && r.r == s.r && r.en == s.en
    ensures Defined(r) == Defined(s) - (if s.v.Some? then 1 else 0)
  {
    s.(v := None)
  }

  function ClearI(s: Sink): (r: Sink)
    ensures r.i.None? && r.v == s.v && r.r == s.r && r.en == s.en
    ensures Defined(r) == Defined(s) - (if s.i.Some? then 1 else 0)
  {
    s.(i := None)
  }
}

=== FILE: wrappers.dfy ===
/** Optional values, standing for the simulator's "no value" readings
    (Python's `None`, which `defined` in Harvest3.py checks for). */
module Wrappers {

  /** `None` is an undefined reading; `Some(v)` a defined one. */
  datatype Option<+T> = None | Some(value: T)
}
